=== FILE: README.md ===
# Scan session of the printed-text scanner, in Dafny

This project models the interactive scan session of `printedtext.py`. The
session is a key-driven state machine with these steps:

1. Discover cameras in slots 0..4 and let the user pick one.
2. Stream frames until `c` captures one, writing it to `scanned_texts/captured_image.jpg`.
3. Let the user draw a region of interest; crop the captured image to it and write the crop to `scanned_texts/cropped_roi.jpg`.
4. Run OCR on the crop and lay the recognised text out line by line on a result canvas.
5. Wait for a decision: `s` saves the text to `scanned_texts/scanned_text_<YYYYMMDD-HHMMSS>.txt` and cleans up, `r` starts over from camera discovery, `q` cleans up.
6. Cleanup removes the two temporary images and ends the process.

The camera, the window, the region selector, the OCR engine, the clock and
the disk are replaced by plain inputs:

- which slots open (`nat -> bool`)
- the integers typed at the prompt
- a frame plus a raw key code per pass of the capture loop, or a missed read
- the rectangle the selector returns
- the OCR output string
- a broken-down clock reading
- the directory, modelled as a map from path to content

Modules:

- `Camera` (camera.dfy): the discovery loop and the prompt's acceptance test.
- `Region` (region.dfy): images as `seq<seq<Pixel>>`, Python/numpy slice semantics, and the crop `image[y:y+h, x:x+w]`.
- `Layout` (layout.dfy): `str.split("\n")`, `str.strip()`, the blank-line filter, and the drawing loop that places line k at y = 50 + 30k.
- `Storage` (storage.dfy): the fixed paths, the `strftime` timestamp with a parser that proves file names unique per second, and the effect of save and cleanup on the directory.
- `Session` (session.dfy): class `ScanSession`. It has one method per question the program asks, and `Run`, a loop that replaces the recursive retake (`main()` called again from the review loop). Process exit is the stage `Exited(reason)`. The class invariant `Valid()` includes the cleanup invariant: after a cleanup exit, neither temporary image exists. Two client methods, `SaveScenario` and `RetakeWithoutCameraScenario` (whose first round is `FirstRoundWithDetours`), walk through whole sessions using only the method contracts.

Key codes are compared the way the code compares them: `waitKey(...) & 0xFF`
is `KeyByte(raw) == raw % 256`. So only lower-case `c`, `s`, `r` and `q` act,
even though the on-screen instructions print them in capitals. A code such as
`'c' + 256` also acts as `c`.

### Where the code falls short of the intended behaviour (the model follows the code)

- Intended: every exit removes the two temporary images. The code skips the cleanup in two cases, and the model keeps both: `Exited(NoCamera)` and `Exited(CaptureUnreadable)` make no promise about the temporary files. `RetakeWithoutCameraScenario` shows both images still present after a retake followed by an empty discovery.
  - When discovery finds no camera, `select_camera` calls `exit()` without cleanup (printedtext.py:33-35). After a retake, both temporary images from the previous round are therefore left on disk.
  - When the captured image cannot be read back, `select_roi` returns `None` and the program simply ends (printedtext.py:83-85). No cleanup runs.
- Intended: a bounded number of retries after a failed frame read. The code retries without a bound (printedtext.py:55-57), and so does the model: `CaptureStep(Missed)` changes nothing.
- Intended: a retake discards the current temporary files. The code deletes nothing on `r` (printedtext.py:159-161): the files are overwritten only when the next capture and crop happen.
- Intended: a region counts as empty unless width > 0 and height > 0. The code tests only `roi[2] == 0 or roi[3] == 0` (printedtext.py:91). `IsEmptySelection` uses the code's test.

## Model

| member | source | states |
|---|---|---|
| `Camera.DiscoverCameras` | printedtext.py:22-35 | Probes slots 0,1,2,3,4 in that order. The list is strictly increasing. It holds exactly the slots whose probe opened. It is empty exactly when no slot opened. |
| `Camera.Selectable` | printedtext.py:40 | The prompt's test `cam_index in available_cameras`: on a discovered list, an accepted entry is a slot in 0..4. |
| `Camera.SelectableIsDiscovered` | printedtext.py:38-41 | Given a discovered list, the prompt accepts an entry iff it is a slot 0..4 whose probe opened. |
| `Region.IsEmptySelection` | printedtext.py:91 | The refused regions are exactly those of zero area (w * h == 0). |
| `Region.SliceBound` | printedtext.py:97 | A Python slice bound lands in 0..n. In-range bounds are kept, and bounds past the end clamp to n. A negative bound counts from the end and clamps at 0. |
| `Region.PySlice` | printedtext.py:97 | `s[lo:hi]` never fails and is no longer than `s`. It equals `s[lo..hi]` for in-range bounds and is empty when 0 <= hi <= lo. |
| `Region.Crop` | printedtext.py:97 | The crop has no more rows than the image, and on a rectangular image no row wider than it. |
| `Region.CropInside` | printedtext.py:97 | For a region inside a rectangular image, the crop has h rows of w pixels, and crop cell (i, j) is image cell (y+i, x+j). |
| `Region.CropOfEmptySelection` | printedtext.py:91-97 | A zero-width or zero-height region would crop to no pixels at all: the case the code refuses before cropping. |
| `Layout.StripLeft` | printedtext.py:142 | The result is a suffix of the input, and everything it drops is whitespace. It is empty iff the input is all whitespace; otherwise it starts with a non-whitespace character. |
| `Layout.StripRight` | printedtext.py:142 | The result is a prefix of the input, and everything it drops is whitespace. It is empty iff the input is all whitespace; otherwise it ends with a non-whitespace character. |
| `Layout.Strip` | printedtext.py:142 | `line.strip()` is empty iff the line is all whitespace, and otherwise has no whitespace at either end. |
| `Layout.StripTrims` | printedtext.py:142 | `line.strip()` is the slice of the line between a whitespace-only prefix and a whitespace-only suffix. |
| `Layout.IsDrawn` | printedtext.py:142 | The loop's `if line.strip():` holds iff the line is not blank. |
| `Layout.Split` | printedtext.py:139 | `text.split("\n")` yields at least one piece, and no piece contains a newline. |
| `Layout.JoinSplit` | printedtext.py:139 | Joining the pieces with newlines gives the text back. |
| `Layout.SplitCount` | printedtext.py:139 | There is one more piece than the text has newlines. |
| `Layout.NonBlank` | printedtext.py:141-143 | The lines kept for drawing are all non-blank and are no more than the lines of the text. |
| `Layout.NonBlankAppend` | printedtext.py:141-144 | Filtering commutes with concatenation, so the drawn lines keep the text's order. |
| `Layout.NonBlankCount` | printedtext.py:141-144 | The number of drawn lines equals the number of positions holding a non-blank line. |
| `Layout.LayoutLines` | printedtext.py:139-144 | The k-th drawn line is the k-th non-blank line of the split text, placed at x = 20, y = 50 + 30k. The drawing loop proves this with its invariants. |
| `Storage.JoinPath` | printedtext.py:13-14 | `os.path.join(dir, name)` as `posixpath.join` computes it: the name always ends the path, and a relative name follows the directory. With `SplitJoinPath`, splitting the joined path gives back the tidied directory and a bare file name. |
| `Storage.SplitJoinPath` | printedtext.py:13-14 | For any name without a slash, `os.path.split(os.path.join(dir, name))` is (dir with its trailing slashes dropped unless it is all slashes, name). |
| `Storage.TempPathsInSaveDir` | printedtext.py:8-14 | The two temporary image paths differ and both name a file directly inside `scanned_texts`. |
| `Storage.Stamp` | printedtext.py:121 | `strftime("%Y%m%d-%H%M%S")` is fifteen characters: a dash at index 8 and digits everywhere else. |
| `Storage.StampRoundTrip` | printedtext.py:121 | Parsing a formatted clock reading gives that reading back. |
| `Storage.ScanPath` | printedtext.py:119-122 | The saved-scan path is neither temporary image path. |
| `Storage.ScanPathRoundTrip` | printedtext.py:119-122 | A saved-scan path parses back to the clock reading it was built from. |
| `Storage.ScanPathInjective` | printedtext.py:119-122 | Two saved-scan paths are equal iff their clock readings are equal (to the second). |
| `Storage.TempPathsAreNotScans` | printedtext.py:8-14 | Neither temporary image path has the shape of a saved-scan path. |
| `Storage.Cleaned` | printedtext.py:168-173 | After cleanup neither temporary image exists. Every other file is present iff it was before, with the same content. |
| `Storage.CleanedIdempotent` | printedtext.py:168-173 | Cleaning up twice equals cleaning up once. Cleaning a directory without the temporary images changes nothing. |
| `Storage.Saved` | printedtext.py:124-128 | After saving, the scan path holds exactly the extracted text. Every other file is unchanged. |
| `Storage.SaveSurvivesCleanup` | printedtext.py:152-157 | Saving and then cleaning up leaves the scan file with exactly the text. |
| `Session.KeyByte` | printedtext.py:67 | `key & 0xFF` is in 0..255 and is congruent to the raw code mod 256. |
| `Session.ScanSession.constructor` | printedtext.py:178-183 | A session starts at camera discovery, with no camera open, on the given directory. |
| `Session.ScanSession.DetectCameras` | printedtext.py:19-35 | The discovered list is the one DiscoverCameras characterises. With no camera the process exits before any prompt, leaving the files as they were. |
| `Session.ScanSession.ChooseCamera` | printedtext.py:38-42 | A listed index moves on to opening that camera. Any other entry re-prompts and changes nothing else. |
| `Session.ScanSession.OpenCamera` | printedtext.py:46-51 | If the chosen camera opens, capturing starts. Otherwise cleanup runs and the process exits. |
| `Session.ScanSession.CaptureStep` | printedtext.py:53-77 | A missed read changes nothing. `c` writes the frame to the captured-image path, releases the camera and goes to loading. `q` releases the camera and cleans up. Any other key keeps capturing. |
| `Session.ScanSession.LoadCapture` | printedtext.py:79-85 | The captured image read back is the one written. If it cannot be read, the process ends without cleanup. |
| `Session.ScanSession.SelectRegion` | printedtext.py:87-100 | A zero-width or zero-height region changes nothing, so no crop and no region file. Otherwise the crop `Crop(image, roi)` is written to the region path and recognition follows. |
| `Session.ScanSession.Recognize` | printedtext.py:131-146 | The OCR text enters review, laid out as LayoutLines states. |
| `Session.ScanSession.Review` | printedtext.py:148-164 | `s` saves the untrimmed text at the scan path for the clock, then cleans up. `r` restarts at discovery with the files untouched. `q` cleans up. Any other key stays in review. |
| `Session.ScanSession.CleanupAndExit` | printedtext.py:168-176 | Removes the temporary images that exist, keeps every other file, and ends in the terminal stage. |
| `Session.SavedPathsAppend` | printedtext.py:152-157 | One more answer adds its scan path to the paths the script saves to if it is an `s` at the review, and adds nothing otherwise. |
| `Session.ScanSession.Step` | printedtext.py:159-161 | Handing one answer to the stage that asks for it changes no file except the two temporary images and, for an `s` at the review, that answer's scan path. It removes no earlier file other than the temporary images. It exits with `NoCamera` only on a discovery in which no slot opens, and with `CaptureUnreadable` only on a failed read-back. |
| `Session.ScanSession.Run` | printedtext.py:159-161 | The retake loop keeps the invariant: after a cleanup exit neither temporary image exists. Apart from the temporary images, every file keeps its presence and content unless this run saved to that path, and no earlier file is removed. An exit without cleanup is caused by the last answer consumed: an empty discovery for `NoCamera`, a failed read-back for `CaptureUnreadable`. |

## Left out

- Image preprocessing (`preprocess_image`, printedtext.py:102-108): grayscale, blur and Otsu threshold are OpenCV library code. The processed image is not modelled.
- OCR (`extract_text_from_image`, printedtext.py:110-113): the engine's output is an input string to `Recognize`. Engine failures, which raise exceptions, are not modelled.
- Drawing and windows (`overlay_text`, `imshow`, `destroyAllWindows`, the "Saved Successfully" banner and the `waitKey(1000)` pause): only the coordinates of each text line are kept. The instruction overlay is drawn onto the frame before `c` writes it; the scripted frame stands for the frame as drawn on.
- File encoding: the captured image is read back exactly as written. JPEG's lossy round trip and `imwrite` failures, whose return value the code ignores, are not modelled; an unreadable image is the `LoadCapture(false)` input.
- `cv2.imwrite` of an empty crop: the model assumes that `cv2.selectROI` returns only regions lying inside the image. A region with non-zero width and height that lies wholly outside the image would crop to no pixels. For such a region `SelectRegion` writes the empty crop and moves on to recognition, whereas the program raises in `cv2.imwrite` (printedtext.py:98) and ends without cleanup.
- POSIX paths and text files: `JoinPath` uses `/`, the separator of `os.path.join` on POSIX systems, and `Saved` assumes that `open(..., "w")` writes the text unchanged. On Windows the separator is `\` and text mode turns each `"\n"` into `"\r\n"`; neither is modelled.
- `int(input(...))` raising on non-numeric input (printedtext.py:39): entries are integers.
- `os.makedirs` (printedtext.py:17): the save directory is assumed to exist; paths are map keys.
- Region.Crop: its own contract gives only size bounds. Exact contents are stated for regions inside the image (`CropInside`), which the model assumes the selector returns.
- Storage.Stamp: covers four-digit years only.
- Session.ScanSession.Run: stops at a scripted answer that does not fit the current question. The program itself would block waiting for the right kind of input.
- The camera stream handle is the flag `cameraOpen`. The short-lived handles opened and released during discovery are not tracked.
- `carplate.py` (the still-image plate reader) and `test.py` (an import check) are not part of this model.

=== FILE: camera.dfy ===
/** Camera discovery and choice (select_camera).  Opening a device is outside
    the model: `opens(i)` says whether cv2.VideoCapture(i) opened. */
module Camera {

  /** Discovery tries the device slots 0 .. MaxProbes - 1. */
  const MaxProbes: nat := 5

  predicate StrictlyIncreasing(s: seq<nat>) {
    forall i, j :: 0 <= i < j < |s| ==> s[i] < s[j]
  }

  /** The shape of a discovered camera list: ascending slots within the probed range. */
  predicate AvailableList(cameras: seq<nat>) {
    StrictlyIncreasing(cameras) && forall k :: 0 <= k < |cameras| ==> cameras[k] < MaxProbes
  }

  /** The probing loop: every slot is tried once, in order, and the ones that
      open are appended to the list of available cameras.  `probed` records
      the slots tried. */
  method DiscoverCameras(opens: nat -> bool) returns (cameras: seq<nat>, probed: seq<nat>)
    ensures probed == [0, 1, 2, 3, 4]
    ensures AvailableList(cameras)
    ensures forall j: nat :: j in cameras <==> j < MaxProbes && opens(j)
    ensures cameras == [] <==> forall j: nat :: j < MaxProbes ==> !opens(j)
  {
    cameras, probed := [], [];
    for i := 0 to MaxProbes
      invariant |probed| == i && forall k :: 0 <= k < i ==> probed[k] == k
      invariant StrictlyIncreasing(cameras)
      invariant forall k :: 0 <= k < |cameras| ==> cameras[k] < i
      invariant forall j: nat :: j in cameras <==> j < i && opens(j)
    {
      probed := probed + [i];
      if opens(i) {
        cameras := cameras + [i];
      }
    }
    if cameras != [] {
      assert cameras[0] in cameras;
    }
  }

  /** The prompt accepts an entry exactly when it is one of the discovered slots. */
  predicate Selectable(cameras: seq<nat>, entry: int)
    ensures AvailableList(cameras) && Selectable(cameras, entry) ==> 0 <= entry < MaxProbes
  {
    entry in cameras
  }

  /** Only a discovered slot is ever accepted, and every discovered slot is. */
  lemma SelectableIsDiscovered(opens: nat -> bool, cameras: seq<nat>, entry: int)
    requires forall j: nat :: j in cameras <==> j < MaxProbes && opens(j)
    ensures Selectable(cameras, entry) <==> 0 <= entry < MaxProbes && opens(entry)
  {
  }
}

=== FILE: layout.dfy ===
/** Layout of the recognised text on the result canvas (extract_text_and_display):
    the text is split on newlines, blank lines are skipped, and every drawn
    line sits 30 pixels below the previous one, starting at y = 50. */
module Layout {

  /** Characters Python's str.isspace accepts, i.e. the ones str.strip removes. */
  predicate IsSpace(c: char) {
    c == ' ' || ('\t' <= c <= '\r') || ('\U{1c}' <= c <= '\U{1f}')
    || c == '\U{85}' || c == '\U{a0}' || c == '\U{1680}'
    || ('\U{2000}' <= c <= '\U{200a}') || c == '\U{2028}' || c == '\U{2029}'
    || c == '\U{202f}' || c == '\U{205f}' || c == '\U{3000}'
  }

  predicate AllSpace(s: string) {
    forall i :: 0 <= i < |s| ==> IsSpace(s[i])
  }

  /** Index of the first non-whitespace character of s at or after i, or |s| if none. */
  function FirstNonSpace(s: string, i: nat): (n: nat)
    requires i <= |s|
    ensures i <= n <= |s|
    ensures forall k :: i <= k < n ==> IsSpace(s[k])
    ensures n < |s| ==> !IsSpace(s[n])
    decreases |s| - i
  {
    if i < |s| && IsSpace(s[i]) then FirstNonSpace(s, i + 1) else i
  }

  /** Index just past the last non-whitespace character of s before j, or 0 if none. */
  function EndOfNonSpace(s: string, j: nat): (n: nat)
    requires j <= |s|
    ensures n <= j
    ensures forall k :: n <= k < j ==> IsSpace(s[k])
    ensures n > 0 ==> !IsSpace(s[n - 1])
    decreases j
  {
    if j > 0 && IsSpace(s[j - 1]) then EndOfNonSpace(s, j - 1) else j
  }

  /** Python's str.lstrip(): drops leading whitespace. */
  function StripLeft(s: string): (r: string)
    ensures |r| <= |s| && r == s[|s| - |r|..]
    ensures AllSpace(s[..|s| - |r|])
    ensures r == [] <==> AllSpace(s)
    ensures r != [] ==> !IsSpace(r[0])
  {
    s[FirstNonSpace(s, 0)..]
  }

  /** Python's str.rstrip(): drops trailing whitespace. */
  function StripRight(s: string): (r: string)
    ensures |r| <= |s| && r == s[..|r|]
    ensures AllSpace(s[|r|..])
    ensures r == [] <==> AllSpace(s)
    ensures r != [] ==> !IsSpace(r[|r| - 1])
  {
    s[..EndOfNonSpace(s, |s|)]
  }

  /** Python's str.strip(). */
  function Strip(s: string): (r: string)
    ensures r == [] <==> AllSpace(s)
    ensures r != [] ==> !IsSpace(r[0]) && !IsSpace(r[|r| - 1])
  {
    StripRight(StripLeft(s))
  }

  /** strip() removes exactly a whitespace prefix and a whitespace suffix:
      the result is the slice of the line between them. */
  lemma {:induction false} StripTrims(s: string)
    ensures var a := |s| - |StripLeft(s)|;
      a + |Strip(s)| <= |s|
      && Strip(s) == s[a..a + |Strip(s)|]
      && AllSpace(s[..a]) && AllSpace(s[a + |Strip(s)|..])
  {
    TrimmedSlice(s, StripLeft(s), Strip(s));
  }

  /** A prefix-then-suffix trim of s is a slice of s with whitespace on both sides. */
  lemma {:induction false} TrimmedSlice(s: string, t: string, r: string)
    requires |t| <= |s| && t == s[|s| - |t|..] && AllSpace(s[..|s| - |t|])
    requires |r| <= |t| && r == t[..|r|] && AllSpace(t[|r|..])
    ensures var a := |s| - |t|;
      a + |r| <= |s| && r == s[a..a + |r|] && AllSpace(s[..a]) && AllSpace(s[a + |r|..])
  {
    var a := |s| - |t|;
    assert t[|r|..] == s[a + |r|..];
  }

  /** A line is skipped by the layout exactly when `line.strip()` is falsy,
      which by the contract of Strip is when it consists of whitespace only. */
  predicate IsBlank(line: string) {
    AllSpace(line)
  }

  /** The test `if line.strip():` of the drawing loop. */
  function IsDrawn(line: string): (drawn: bool)
    ensures drawn <==> !IsBlank(line)
  {
    Strip(line) != []
  }

  /** Python's `text.split("\n")`: the pieces between newlines, always at least one. */
  function Split(s: string): (parts: seq<string>)
    ensures |parts| >= 1
    ensures forall k :: 0 <= k < |parts| ==> '\n' !in parts[k]
    decreases |s|
  {
    if |s| == 0 then [""]
    else if s[0] == '\n' then [""] + Split(s[1..])
    else
      var rest := Split(s[1..]);
      [[s[0]] + rest[0]] + rest[1..]
  }

  /** `"\n".join(parts)`, the inverse of Split. */
  function Join(parts: seq<string>): string
    requires |parts| >= 1
    decreases |parts|
  {
    if |parts| == 1 then parts[0] else parts[0] + "\n" + Join(parts[1..])
  }

  /** Number of newline characters in s. */
  function Newlines(s: string): nat
    decreases |s|
  {
    if s == [] then 0 else (if s[0] == '\n' then 1 else 0) + Newlines(s[1..])
  }

  /** Splitting on newlines loses nothing: joining the pieces gives the text back. */
  lemma {:induction false} JoinSplit(s: string)
    ensures Join(Split(s)) == s
    decreases |s|
  {
    if |s| == 0 {
    } else if s[0] == '\n' {
      JoinSplit(s[1..]);
      var parts := Split(s);
      assert parts[1..] == Split(s[1..]);
      assert s == "\n" + s[1..];
    } else {
      JoinSplit(s[1..]);
      assert s == [s[0]] + s[1..];
    }
  }

  /** The text splits into one more line than it has newlines. */
  lemma {:induction false} SplitCount(s: string)
    ensures |Split(s)| == Newlines(s) + 1
    decreases |s|
  {
    if |s| > 0 {
      SplitCount(s[1..]);
    }
  }

  /** The lines that are drawn, in their original order. */
  function NonBlank(lines: seq<string>): (r: seq<string>)
    ensures |r| <= |lines|
    ensures forall k :: 0 <= k < |r| ==> !IsBlank(r[k])
    decreases |lines|
  {
    if lines == [] then []
    else (if IsBlank(lines[0]) then [] else [lines[0]]) + NonBlank(lines[1..])
  }

  /** Filtering commutes with concatenation, so the drawn lines keep the order of the text. */
  lemma {:induction false} NonBlankAppend(a: seq<string>, b: seq<string>)
    ensures NonBlank(a + b) == NonBlank(a) + NonBlank(b)
    decreases |a|
  {
    if a != [] {
      assert (a + b)[1..] == a[1..] + b;
      NonBlankAppend(a[1..], b);
    } else {
      assert a + b == b;
    }
  }

  lemma {:induction false} NonBlankSingle(line: string)
    ensures NonBlank([line]) == if IsBlank(line) then [] else [line]
  {
    assert [line][1..] == [];
  }

  /** One more line of the text adds that line to the drawn ones unless it is blank. */
  lemma {:induction false} NonBlankPrefix(lines: seq<string>, i: int)
    requires 0 <= i < |lines|
    ensures NonBlank(lines[..i + 1])
            == NonBlank(lines[..i]) + if IsBlank(lines[i]) then [] else [lines[i]]
  {
    assert lines[..i + 1] == lines[..i] + [lines[i]];
    NonBlankAppend(lines[..i], [lines[i]]);
    NonBlankSingle(lines[i]);
  }

  /** Positions of the lines that are not blank: an independent count of the drawn lines. */
  function NonBlankIndices(lines: seq<string>): set<int> {
    set k | 0 <= k < |lines| && !IsBlank(lines[k])
  }

  /** Exactly one line is drawn per non-blank line of the text. */
  lemma {:induction false} NonBlankCount(lines: seq<string>)
    ensures |NonBlank(lines)| == |NonBlankIndices(lines)|
    decreases |lines|
  {
    if lines != [] {
      var n := |lines| - 1;
      var init := lines[..n];
      assert lines == init + [lines[n]];
      NonBlankCount(init);
      NonBlankAppend(init, [lines[n]]);
      NonBlankSingle(lines[n]);
      if IsBlank(lines[n]) {
        assert NonBlankIndices(lines) == NonBlankIndices(init);
      } else {
        assert NonBlankIndices(lines) == NonBlankIndices(init) + {n};
        assert n !in NonBlankIndices(init);
      }
    }
  }

  /** Canvas coordinates used for the result text. */
  const LineX: int := 20
  const FirstLineY: int := 50
  const LineSpacing: int := 30

  /** One line of text drawn at (x, y) on the result canvas. */
  datatype Placed = Placed(line: string, x: int, y: int)

  /** The k-th drawn line is the k-th non-blank line of the text, at y = 50 + 30k. */
  ghost predicate LaidOut(text: string, placed: seq<Placed>) {
    var drawn := NonBlank(Split(text));
    |placed| == |drawn|
    && forall k :: 0 <= k < |placed| ==>
         placed[k] == Placed(drawn[k], LineX, FirstLineY + LineSpacing * k)
  }

  /** The drawing loop of extract_text_and_display, with putText replaced by
      recording where each line goes. */
  method LayoutLines(text: string) returns (placed: seq<Placed>)
    ensures LaidOut(text, placed)
  {
    var lines := Split(text);
    var y := FirstLineY;
    placed := [];
    for i := 0 to |lines|
      invariant y == FirstLineY + LineSpacing * |placed|
      invariant |placed| == |NonBlank(lines[..i])|
      invariant forall k :: 0 <= k < |placed| ==>
                  placed[k] == Placed(NonBlank(lines[..i])[k], LineX, FirstLineY + LineSpacing * k)
    {
      NonBlankPrefix(lines, i);
      if IsDrawn(lines[i]) {
        placed := placed + [Placed(lines[i], LineX, y)];
        y := y + LineSpacing;
      }
    }
    assert lines[..|lines|] == lines;
  }
}

=== FILE: region.dfy ===
/** Region-of-interest selection and cropping (select_roi).  An image is the
    row-major pixel grid numpy hands around; a region is the (x, y, w, h)
    tuple cv2.selectROI returns; the crop is numpy's basic slicing
    `image[y:y+h, x:x+w]`, which clamps out-of-range bounds instead of failing. */
module Region {

  /** One BGR pixel, as cv2.imread returns it. */
  datatype Pixel = Pixel(blue: bv8, green: bv8, red: bv8)

  /** Rows of pixels, top row first. */
  type Image = seq<seq<Pixel>>

  /** The rectangle returned by the region selector: origin (x, y), width w, height h. */
  datatype Roi = Roi(x: int, y: int, w: int, h: int)

  function Height(img: Image): nat {
    |img|
  }

  function Width(img: Image): nat {
    if img == [] then 0 else |img[0]|
  }

  /** Every row has the same number of pixels, as in any numpy image. */
  predicate Rectangular(img: Image) {
    forall i :: 0 <= i < |img| ==> |img[i]| == Width(img)
  }

  /** The selector's "nothing selected" answer: the code tests `roi[2] == 0 or roi[3] == 0`. */
  predicate IsEmptySelection(roi: Roi)
    ensures IsEmptySelection(roi) <==> roi.w * roi.h == 0
  {
    roi.w == 0 || roi.h == 0
  }

  /** The region lies within the image. */
  predicate Inside(roi: Roi, img: Image) {
    0 <= roi.x && 0 <= roi.y && 0 <= roi.w && 0 <= roi.h
    && roi.x + roi.w <= Width(img) && roi.y + roi.h <= Height(img)
  }

  /** Where a Python slice bound lands in a sequence of length n: a negative
      bound counts from the end, and the result is clamped to 0 .. n. */
  function SliceBound(n: nat, i: int): (k: nat)
    ensures k <= n
    ensures 0 <= i <= n ==> k == i
    ensures i > n ==> k == n
    ensures i < 0 && 0 <= n + i ==> k == n + i
    ensures n + i < 0 ==> k == 0
  {
    if i < 0 then (if i + n < 0 then 0 else i + n)
    else if i > n then n
    else i
  }

  /** Python's `s[lo:hi]` (step 1): never fails, and is empty when the
      normalised bounds cross. */
  function PySlice<T>(s: seq<T>, lo: int, hi: int): (r: seq<T>)
    ensures |r| <= |s|
    ensures 0 <= lo <= hi <= |s| ==> r == s[lo..hi]
    ensures 0 <= hi <= lo ==> r == []
  {
    var a, b := SliceBound(|s|, lo), SliceBound(|s|, hi);
    if a < b then s[a..b] else []
  }

  /** `image[y:y+h, x:x+w]`: the rows y .. y+h, each cut to the columns x .. x+w. */
  function Crop(img: Image, roi: Roi): (c: Image)
    ensures |c| <= Height(img)
    ensures Rectangular(img) ==> forall i :: 0 <= i < |c| ==> |c[i]| <= Width(img)
  {
    var rows := PySlice(img, roi.y, roi.y + roi.h);
    seq(|rows|, i requires 0 <= i < |rows| => PySlice(rows[i], roi.x, roi.x + roi.w))
  }

  /** A region inside the image crops to exactly h rows of w pixels, and cell
      (i, j) of the crop is cell (y + i, x + j) of the image. */
  lemma CropInside(img: Image, roi: Roi)
    requires Rectangular(img) && Inside(roi, img)
    ensures Height(Crop(img, roi)) == roi.h
    ensures Rectangular(Crop(img, roi)) && (roi.h > 0 ==> Width(Crop(img, roi)) == roi.w)
    ensures forall i, j :: 0 <= i < roi.h && 0 <= j < roi.w ==>
              Crop(img, roi)[i][j] == img[roi.y + i][roi.x + j]
  {
    var rows := PySlice(img, roi.y, roi.y + roi.h);
    assert rows == img[roi.y..roi.y + roi.h];
    forall i | 0 <= i < roi.h
      ensures Crop(img, roi)[i] == img[roi.y + i][roi.x..roi.x + roi.w]
    {
      assert rows[i] == img[roi.y + i];
    }
  }

  /** A region with no extent in one direction crops to nothing that has
      pixels, which is why the code refuses it before cropping. */
  lemma CropOfEmptySelection(img: Image, roi: Roi)
    requires Rectangular(img) && Inside(roi, img) && IsEmptySelection(roi)
    ensures forall i :: 0 <= i < |Crop(img, roi)| ==> Crop(img, roi)[i] == []
    ensures roi.h == 0 ==> Crop(img, roi) == []
  {
    CropInside(img, roi);
  }
}

=== FILE: session.dfy ===
/** The scan session of printedtext.py as a state machine.  Each method answers
    one question the program asks its surroundings (which cameras open, which
    index the user typed, a frame and a key, a rectangle, the recognised text,
    a key and the time), and Run replaces the recursive retake of main() with
    a loop.  Process exit is the stage Exited. */
module Session {
  import opened Camera
  import opened Region
  import opened Layout
  import opened Storage

  /** `cv2.waitKey(...) & 0xFF`: the low byte of the key code (a missing key, -1, becomes 255). */
  function KeyByte(raw: int): (b: int)
    ensures 0 <= b < 256
    ensures (raw - b) % 256 == 0
  {
    raw % 256
  }

  const KeyCapture: int := 'c' as int
  const KeyQuit: int := 'q' as int
  const KeySave: int := 's' as int
  const KeyRetake: int := 'r' as int

  /** How the process ended: exit() with no camera found, the captured image not
      loading (select_roi returns None and the program runs off its end), or
      cleanup_and_exit. */
  datatype ExitReason = NoCamera | CaptureUnreadable | CleanedUp

  datatype Stage =
    | DetectingCameras                          // select_camera: probing slots
    | ChoosingCamera                            // select_camera: the prompt loop
    | OpeningCamera(index: nat)                 // capture_image: opening the chosen camera
    | Capturing(index: nat)                     // capture_image: the frame loop
    | LoadingCapture                            // select_roi: reading the captured image back
    | SelectingRegion(image: Image)             // select_roi: the selection loop
    | Recognizing(crop: Image)                  // extract_text_and_display: the OCR call
    | Reviewing(text: string, layout: seq<Placed>)  // extract_text_and_display: the key loop
    | Exited(reason: ExitReason)

  /** One pass of the capture loop: the read failed, or a frame was shown and a key read. */
  datatype FrameRead = Missed | Shown(frame: Image, key: int)

  /** A scripted answer to the question the current stage asks. */
  datatype Input =
    | Probe(opens: nat -> bool)
    | Entry(index: int)
    | Open(ok: bool)
    | Read(read: FrameRead)
    | Load(ok: bool)
    | Select(roi: Roi)
    | Ocr(text: string)
    | Decide(key: int, clock: Clock)

  /** Whether the input answers the question the stage asks. */
  predicate Fits(stage: Stage, input: Input) {
    match input
    case Probe(_) => stage == DetectingCameras
    case Entry(_) => stage == ChoosingCamera
    case Open(_) => stage.OpeningCamera?
    case Read(_) => stage.Capturing?
    case Load(_) => stage == LoadingCapture
    case Select(_) => stage.SelectingRegion?
    case Ocr(_) => stage.Recognizing?
    case Decide(_, _) => stage.Reviewing?
  }

  /** Files other than the temporary images and the saved scans are never touched. */
  ghost predicate Untouched(before: FileSystem, after: FileSystem) {
    forall p :: p != ImagePath && p != RoiPath && !IsScanPath(p) ==>
      (p in after <==> p in before) && (p in before ==> after[p] == before[p])
  }

  /** An `s` pressed at the review: the only answer that writes a scan. */
  predicate Saves(input: Input) {
    input.Decide? && KeyByte(input.key) == KeySave
  }

  /** The scan paths the answers in `inputs` save to. */
  function SavedPaths(inputs: seq<Input>): (paths: set<Path>)
    ensures ImagePath !in paths && RoiPath !in paths
  {
    set k | 0 <= k < |inputs| && Saves(inputs[k]) :: ScanPath(inputs[k].clock)
  }

  /** One more answer adds its scan path, if it saves, and nothing else. */
  lemma SavedPathsAppend(inputs: seq<Input>, input: Input)
    ensures SavedPaths(inputs + [input])
            == SavedPaths(inputs) + (if Saves(input) then {ScanPath(input.clock)} else {})
  {
    var all := inputs + [input];
    forall p | p in SavedPaths(all)
      ensures p in SavedPaths(inputs) || (Saves(input) && p == ScanPath(input.clock))
    {
      var k :| 0 <= k < |all| && Saves(all[k]) && p == ScanPath(all[k].clock);
      if k < |inputs| {
        assert all[k] == inputs[k];
      }
    }
    forall p | p in SavedPaths(inputs)
      ensures p in SavedPaths(all)
    {
      var k :| 0 <= k < |inputs| && Saves(inputs[k]) && p == ScanPath(inputs[k].clock);
      assert all[k] == inputs[k];
    }
    if Saves(input) {
      assert all[|inputs|] == input;
    }
  }

  /** A discovery in which no slot opens: the only way select_camera ends the process. */
  predicate NoCameraFound(input: Input) {
    input.Probe? && forall j: nat :: j < MaxProbes ==> !input.opens(j)
  }

  class ScanSession {
    var stage: Stage
    /** The list select_camera built in the current round. */
    var cameras: seq<nat>
    /** Whether the capture device is held open. */
    var cameraOpen: bool
    /** The contents of the working directory. */
    var files: FileSystem

    ghost predicate Valid()
      reads this
    {
      (stage == ChoosingCamera ==> cameras != [] && AvailableList(cameras))
      && (stage.OpeningCamera? ==> stage.index in cameras)
      && (stage.Capturing? ==> stage.index in cameras)
      && (cameraOpen <==> stage.Capturing?)
      && (stage == LoadingCapture ==> ImagePath in files && files[ImagePath].Picture?)
      && (stage.SelectingRegion? ==> ImagePath in files && files[ImagePath] == Picture(stage.image))
      && (stage.Recognizing? ==>
            ImagePath in files && RoiPath in files && files[RoiPath] == Picture(stage.crop))
      && (stage.Reviewing? ==> ImagePath in files && RoiPath in files && LaidOut(stage.text, stage.layout))
      && (stage == Exited(CleanedUp) ==> ImagePath !in files && RoiPath !in files)
    }

    /** The program starts in a directory holding `initial`. */
    constructor (initial: FileSystem)
      ensures Valid()
      ensures stage == DetectingCameras && cameras == [] && !cameraOpen && files == initial
    {
      stage := DetectingCameras;
      cameras := [];
      cameraOpen := false;
      files := initial;
    }

    /** Probes slots 0..4 in order and keeps the ones that open; with none the
        program exits at once, without cleaning up. */
    method DetectCameras(opens: nat -> bool) returns (probed: seq<nat>)
      requires Valid() && stage == DetectingCameras
      modifies this
      ensures Valid()
      ensures probed == [0, 1, 2, 3, 4]
      ensures AvailableList(cameras) && forall j: nat :: j in cameras <==> j < MaxProbes && opens(j)
      ensures cameras == [] <==> forall j: nat :: j < MaxProbes ==> !opens(j)
      ensures stage == if cameras == [] then Exited(NoCamera) else ChoosingCamera
      ensures files == old(files) && cameraOpen == old(cameraOpen)
    {
      var found;
      found, probed := DiscoverCameras(opens);
      cameras := found;
      if |found| == 0 {
        stage := Exited(NoCamera);
      } else {
        stage := ChoosingCamera;
      }
    }

    /** One answer to the camera prompt: a listed index is taken, anything else re-prompts. */
    method ChooseCamera(entry: int)
      requires Valid() && stage == ChoosingCamera
      modifies this
      ensures Valid()
      ensures Selectable(old(cameras), entry) ==> stage == OpeningCamera(entry)
      ensures !Selectable(old(cameras), entry) ==> stage == ChoosingCamera
      ensures cameras == old(cameras) && files == old(files) && cameraOpen == old(cameraOpen)
    {
      if entry in cameras {
        stage := OpeningCamera(entry);
      }
    }

    /** capture_image opening the chosen device; if it does not open, cleanup runs. */
    method OpenCamera(ok: bool)
      requires Valid() && stage.OpeningCamera?
      modifies this
      ensures Valid()
      ensures ok ==> stage == Capturing(old(stage).index) && cameraOpen && files == old(files)
      ensures !ok ==> stage == Exited(CleanedUp) && !cameraOpen && files == Cleaned(old(files))
      ensures cameras == old(cameras)
    {
      if ok {
        stage := Capturing(stage.index);
        cameraOpen := true;
      } else {
        CleanupAndExit();
      }
    }

    /** One pass of the capture loop.  A failed read retries; `c` writes the
        frame to the captured-image path, releases the camera and goes on to
        region selection; `q` releases the camera and cleans up; other keys
        keep capturing. */
    method CaptureStep(read: FrameRead)
      requires Valid() && stage.Capturing?
      modifies this
      ensures Valid()
      ensures read.Missed? ==> stage == old(stage) && files == old(files) && cameraOpen
      ensures read.Shown? && KeyByte(read.key) == KeyCapture ==>
                stage == LoadingCapture && !cameraOpen
                && files == old(files)[ImagePath := Picture(read.frame)]
      ensures read.Shown? && KeyByte(read.key) == KeyQuit ==>
                stage == Exited(CleanedUp) && !cameraOpen && files == Cleaned(old(files))
      ensures read.Shown? && KeyByte(read.key) != KeyCapture && KeyByte(read.key) != KeyQuit ==>
                stage == old(stage) && files == old(files) && cameraOpen
      ensures cameras == old(cameras)
    {
      match read
      case Missed =>
      case Shown(frame, key) =>
        var k := KeyByte(key);
        if k == KeyCapture {
          files := files[ImagePath := Picture(frame)];
          cameraOpen := false;
          stage := LoadingCapture;
        } else if k == KeyQuit {
          cameraOpen := false;
          CleanupAndExit();
        }
    }

    /** select_roi reading the captured image back; when it does not load the
        function returns None and the program ends without cleaning up. */
    method LoadCapture(ok: bool)
      requires Valid() && stage == LoadingCapture
      modifies this
      ensures Valid()
      ensures ok ==> stage == SelectingRegion(old(files)[ImagePath].image)
      ensures !ok ==> stage == Exited(CaptureUnreadable)
      ensures files == old(files) && cameras == old(cameras) && cameraOpen == old(cameraOpen)
    {
      if ok {
        stage := SelectingRegion(files[ImagePath].image);
      } else {
        stage := Exited(CaptureUnreadable);
      }
    }

    /** One pass of the selection loop.  A rectangle with zero width or height
        asks again and writes nothing; otherwise the crop is written to the
        region path and recognition follows. */
    method SelectRegion(roi: Roi)
      requires Valid() && stage.SelectingRegion?
      modifies this
      ensures Valid()
      ensures IsEmptySelection(roi) ==> stage == old(stage) && files == old(files)
      ensures !IsEmptySelection(roi) ==>
                stage == Recognizing(Crop(old(stage).image, roi))
                && files == old(files)[RoiPath := Picture(Crop(old(stage).image, roi))]
      ensures cameras == old(cameras) && cameraOpen == old(cameraOpen)
    {
      if roi.w == 0 || roi.h == 0 {
        return;
      }
      var crop := Crop(stage.image, roi);
      files := files[RoiPath := Picture(crop)];
      stage := Recognizing(crop);
    }

    /** The recognised text arrives and is laid out on the result canvas. */
    method Recognize(text: string)
      requires Valid() && stage.Recognizing?
      modifies this
      ensures Valid()
      ensures stage.Reviewing? && stage.text == text && LaidOut(text, stage.layout)
      ensures files == old(files) && cameras == old(cameras) && cameraOpen == old(cameraOpen)
    {
      var layout := LayoutLines(text);
      stage := Reviewing(text, layout);
    }

    /** One pass of the review loop.  `s` saves the text under a name made from
        the clock and cleans up; `r` starts over at camera discovery and leaves
        the files alone; `q` cleans up; any other key waits again. */
    method Review(key: int, clock: Clock)
      requires Valid() && stage.Reviewing?
      modifies this
      ensures Valid()
      ensures KeyByte(key) == KeySave ==>
                stage == Exited(CleanedUp) && files == Cleaned(Saved(old(files), clock, old(stage).text))
      ensures KeyByte(key) == KeyRetake ==> stage == DetectingCameras && files == old(files)
      ensures KeyByte(key) == KeyQuit ==> stage == Exited(CleanedUp) && files == Cleaned(old(files))
      ensures KeyByte(key) !in {KeySave, KeyRetake, KeyQuit} ==> stage == old(stage) && files == old(files)
      ensures cameras == old(cameras) && cameraOpen == old(cameraOpen)
    {
      var k := KeyByte(key);
      if k == KeySave {
        files := Saved(files, clock, stage.text);
        CleanupAndExit();
      } else if k == KeyRetake {
        stage := DetectingCameras;
      } else if k == KeyQuit {
        CleanupAndExit();
      }
    }

    /** cleanup_and_exit: removes the temporary images that exist and ends the process. */
    method CleanupAndExit()
      requires !cameraOpen
      modifies this
      ensures stage == Exited(CleanedUp) && files == Cleaned(old(files))
      ensures cameras == old(cameras) && !cameraOpen
      ensures Valid()
    {
      var left := files;
      if ImagePath in left {
        left := left - {ImagePath};
      }
      if RoiPath in left {
        left := left - {RoiPath};
      }
      files := left;
      stage := Exited(CleanedUp);
    }

    /** Hands one answer to the stage that asks for it. */
    method Step(input: Input)
      requires Valid() && !stage.Exited? && Fits(stage, input)
      modifies this
      ensures Valid()
      ensures Untouched(old(files), files)
      ensures forall p :: p in old(files) && p != ImagePath && p != RoiPath ==> p in files
      ensures forall p :: p != ImagePath && p != RoiPath && !(Saves(input) && p == ScanPath(input.clock)) ==>
                (p in files <==> p in old(files)) && (p in files ==> files[p] == old(files)[p])
      ensures stage == Exited(NoCamera) ==> NoCameraFound(input)
      ensures stage == Exited(CaptureUnreadable) ==> input == Load(false)
    {
      match input {
      case Probe(opens) =>
        var _ := DetectCameras(opens);
      case Entry(index) =>
        ChooseCamera(index);
      case Open(ok) =>
        OpenCamera(ok);
      case Read(read) =>
        CaptureStep(read);
      case Load(ok) =>
        LoadCapture(ok);
      case Select(roi) =>
        SelectRegion(roi);
      case Ocr(text) =>
        Recognize(text);
      case Decide(key, clock) =>
        ScanPathRoundTrip(clock);
        Review(key, clock);
      }
    }

    /** main() with the retake recursion unrolled: feeds the script to the stage
        that asks, until the process exits, the script runs out, or an answer
        does not fit the question. */
    method Run(script: seq<Input>) returns (consumed: nat)
      requires Valid()
      modifies this
      ensures Valid()
      ensures consumed <= |script|
      ensures consumed < |script| ==> stage.Exited? || !Fits(stage, script[consumed])
      ensures stage == Exited(CleanedUp) ==> ImagePath !in files && RoiPath !in files
      ensures old(stage).Exited? ==> stage == old(stage) && files == old(files)
      ensures Untouched(old(files), files)
      ensures forall p :: p in old(files) && p != ImagePath && p != RoiPath ==> p in files
      ensures forall p :: p != ImagePath && p != RoiPath && p !in SavedPaths(script[..consumed]) ==>
                (p in files <==> p in old(files)) && (p in files ==> files[p] == old(files)[p])
      ensures stage == Exited(NoCamera) && !old(stage).Exited? ==>
                consumed > 0 && NoCameraFound(script[consumed - 1])
      ensures stage == Exited(CaptureUnreadable) && !old(stage).Exited? ==>
                consumed > 0 && script[consumed - 1] == Load(false)
    {
      consumed := 0;
      while consumed < |script| && !stage.Exited? && Fits(stage, script[consumed])
        invariant Valid()
        invariant consumed <= |script|
        invariant old(stage).Exited? ==> stage == old(stage) && files == old(files)
        invariant Untouched(old(files), files)
        invariant forall p :: p in old(files) && p != ImagePath && p != RoiPath ==> p in files
        invariant forall p :: p != ImagePath && p != RoiPath && p !in SavedPaths(script[..consumed]) ==>
                    (p in files <==> p in old(files)) && (p in files ==> files[p] == old(files)[p])
        invariant stage == Exited(NoCamera) && !old(stage).Exited? ==>
                    consumed > 0 && NoCameraFound(script[consumed - 1])
        invariant stage == Exited(CaptureUnreadable) && !old(stage).Exited? ==>
                    consumed > 0 && script[consumed - 1] == Load(false)
        decreases |script| - consumed
      {
        Step(script[consumed]);
        SavedPathsAppend(script[..consumed], script[consumed]);
        assert script[..consumed + 1] == script[..consumed] + [script[consumed]];
        consumed := consumed + 1;
      }
    }
  }

  /** A whole camera-mode session: device 0, capture, a 100 x 50
      region, the text "ABC123", then `s`.  The scan file holds the text and
      both temporary images are gone. */
  method SaveScenario()
  {
    var frame: Image := seq(480, _ => seq(640, _ => Pixel(0, 0, 0)));
    var clock: Clock := DateTime(2026, 10, 11, 9, 30, 5);
    var s := new ScanSession(map[]);
    var probed := s.DetectCameras(j => j == 0);
    assert 0 in s.cameras;
    s.ChooseCamera(0);
    s.OpenCamera(true);
    s.CaptureStep(FrameRead.Shown(frame, KeyCapture));
    s.LoadCapture(true);
    s.SelectRegion(Roi(10, 20, 100, 50));
    CropInside(frame, Roi(10, 20, 100, 50));
    assert s.stage.Recognizing? && |s.stage.crop| == 50 && |s.stage.crop[0]| == 100;
    s.Recognize("ABC123");
    s.Review(KeySave, clock);
    assert s.stage == Exited(CleanedUp);
    assert s.files[ScanPath(clock)] == Document("ABC123");
    assert ImagePath !in s.files && RoiPath !in s.files;
  }

  /** A first round with the detours the prompts allow: an unlisted camera
      index, a missed read, an upper-case `C`, `c` plus 256 and an empty region.
      It reaches the review with both temporary images on disk. */
  method FirstRoundWithDetours() returns (s: ScanSession)
    ensures fresh(s) && s.Valid() && s.stage.Reviewing?
    ensures ImagePath in s.files && RoiPath in s.files
  {
    var frame: Image := [[Pixel(1, 2, 3)]];
    s := new ScanSession(map[]);
    var probed := s.DetectCameras(j => j == 2);
    assert 2 in s.cameras;
    s.ChooseCamera(7);
    assert s.stage == ChoosingCamera;
    s.ChooseCamera(2);
    s.OpenCamera(true);
    s.CaptureStep(Missed);
    s.CaptureStep(FrameRead.Shown(frame, 'C' as int));
    assert s.stage == Capturing(2);
    s.CaptureStep(FrameRead.Shown(frame, KeyCapture + 256));
    s.LoadCapture(true);
    s.SelectRegion(Roi(0, 0, 0, 1));
    assert s.stage == SelectingRegion(frame) && RoiPath !in s.files;
    s.SelectRegion(Roi(0, 0, 1, 1));
    s.Recognize("");
  }

  /** Retake, then find no camera: exit() runs without cleanup, so both
      temporary images of the first round are still on disk. */
  method RetakeWithoutCameraScenario()
  {
    var s := FirstRoundWithDetours();
    s.Review(KeyRetake, DateTime(2026, 1, 1, 0, 0, 0));
    var probed := s.DetectCameras(j => false);
    assert s.stage == Exited(NoCamera);
    assert ImagePath in s.files && RoiPath in s.files;
  }
}

=== FILE: storage.dfy ===
/** The files the session touches: two fixed temporary images and the saved
    scans, whose names come from the wall clock (generate_unique_filename,
    save_text, cleanup_and_exit).  The directory is a map from path to content. */
module Storage {
  import opened Region

  datatype Option<+T> = None | Some(value: T)

  type Path = string

  /** What a file holds: an image written by cv2.imwrite or text written by save_text. */
  datatype Content = Picture(image: Image) | Document(text: string)

  type FileSystem = map<Path, Content>

  const SaveDir: Path := "scanned_texts"

  /** posixpath.join(dir, name): an absolute name replaces the directory, a
      directory that is empty or already ends in a slash gets no second one. */
  function JoinPath(dir: Path, name: string): (p: Path)
    ensures |name| <= |p| && p[|p| - |name|..] == name
    ensures (name == [] || name[0] != '/') ==> |dir| <= |p| && p[..|dir|] == dir
  {
    if name != [] && name[0] == '/' then name
    else if dir == [] || dir[|dir| - 1] == '/' then dir + name
    else dir + "/" + name
  }

  /** Index just past the last slash in p[..j], or 0 if there is none. */
  function AfterLastSlash(p: Path, j: nat): (i: nat)
    requires j <= |p|
    ensures i <= j
    ensures forall k :: i <= k < j ==> p[k] != '/'
    ensures i > 0 ==> p[i - 1] == '/'
    decreases j
  {
    if j == 0 || p[j - 1] == '/' then j else AfterLastSlash(p, j - 1)
  }

  /** str.rstrip("/"). */
  function StripTrailingSlashes(s: Path): (r: Path)
    ensures |r| <= |s| && r == s[..|r|]
    ensures r != [] ==> r[|r| - 1] != '/'
    decreases |s|
  {
    if |s| > 0 && s[|s| - 1] == '/' then StripTrailingSlashes(s[..|s| - 1]) else s
  }

  /** The head os.path.split reports for a directory part: trailing slashes
      dropped unless it consists of slashes only. */
  function TidyHead(head: Path): Path {
    var stripped := StripTrailingSlashes(head);
    if stripped != [] then stripped else head
  }

  /** posixpath.split(p): the part after the last slash is the tail, the part
      up to it (tidied) is the head. */
  function SplitPath(p: Path): (parts: (Path, string))
    ensures '/' !in parts.1
  {
    var i := AfterLastSlash(p, |p|);
    assert forall k :: 0 <= k < |p[i..]| ==> p[i..][k] == p[i + k];
    (TidyHead(p[..i]), p[i..])
  }

  /** Splitting a joined path gives back the directory (tidied) and the name,
      for any name that is a bare file name. */
  lemma {:induction false} SplitJoinPath(dir: Path, name: string)
    requires '/' !in name
    ensures SplitPath(JoinPath(dir, name)) == (TidyHead(dir), name)
  {
    var p := JoinPath(dir, name);
    var m := |p| - |name|;
    assert p[m..] == name;
    if dir == [] || dir[|dir| - 1] == '/' {
      assert p == dir + name && m == |dir|;
      assert p[..m] == dir;
    } else {
      assert p == dir + "/" + name && m == |dir| + 1;
      assert p[..m] == dir + "/";
      assert (dir + "/")[..|dir|] == dir;
      assert StripTrailingSlashes(dir + "/") == StripTrailingSlashes(dir) == dir;
      assert TidyHead(dir + "/") == dir == TidyHead(dir);
    }
    assert forall k :: m <= k < |p| ==> p[k] == name[k - m];
    LastSlashUnique(p, |p|, m);
  }

  /** AfterLastSlash is the only index with its contract. */
  lemma {:induction false} LastSlashUnique(p: Path, j: nat, m: nat)
    requires m <= j <= |p|
    requires forall k :: m <= k < j ==> p[k] != '/'
    requires m > 0 ==> p[m - 1] == '/'
    ensures AfterLastSlash(p, j) == m
  {
  }

  /** Where the captured frame is written. */
  const ImagePath: Path := JoinPath(SaveDir, "captured_image.jpg")

  /** Where the cropped region is written. */
  const RoiPath: Path := JoinPath(SaveDir, "cropped_roi.jpg")

  /** A reading of the local wall clock, broken down as time.strftime sees it. */
  datatype DateTime = DateTime(year: int, month: int, day: int, hour: int, minute: int, second: int)

  /** The ranges of a real clock reading (seconds up to 61, as strftime allows);
      the year has four digits. */
  predicate ValidDateTime(t: DateTime) {
    1000 <= t.year <= 9999 && 1 <= t.month <= 12 && 1 <= t.day <= 31
    && 0 <= t.hour <= 23 && 0 <= t.minute <= 59 && 0 <= t.second <= 61
  }

  type Clock = t: DateTime | ValidDateTime(t) witness DateTime(1970, 1, 1, 0, 0, 0)

  predicate IsDigit(c: char) {
    '0' <= c <= '9'
  }

  function DigitChar(d: int): (c: char)
    requires 0 <= d < 10
    ensures IsDigit(c)
  {
    ('0' as int + d) as char
  }

  function DigitValue(c: char): int
    requires IsDigit(c)
  {
    c as int - '0' as int
  }

  /** A number below 100 as two digits, zero-padded. */
  function Pad2(n: int): (s: string)
    requires 0 <= n < 100
    ensures |s| == 2 && IsDigit(s[0]) && IsDigit(s[1])
  {
    [DigitChar(n / 10), DigitChar(n % 10)]
  }

  /** A number below 10000 as four digits, zero-padded. */
  function Pad4(n: int): (s: string)
    requires 0 <= n < 10000
    ensures |s| == 4 && forall i :: 0 <= i < 4 ==> IsDigit(s[i])
  {
    Pad2(n / 100) + Pad2(n % 100)
  }

  /** `time.strftime("%Y%m%d-%H%M%S")`: fifteen characters, a dash at index 8
      and decimal digits everywhere else. */
  function Stamp(t: Clock): (s: string)
    ensures |s| == 15 && s[8] == '-'
    ensures forall i :: 0 <= i < 15 && i != 8 ==> IsDigit(s[i])
  {
    Pad4(t.year) + Pad2(t.month) + Pad2(t.day) + "-" + Pad2(t.hour) + Pad2(t.minute) + Pad2(t.second)
  }

  function Value2(s: string): int
    requires |s| == 2 && IsDigit(s[0]) && IsDigit(s[1])
  {
    10 * DigitValue(s[0]) + DigitValue(s[1])
  }

  /** Reads a stamp back; None for anything not shaped like one. */
  function ParseStamp(s: string): Option<DateTime> {
    if |s| == 15 && s[8] == '-' && forall i :: 0 <= i < 15 && i != 8 ==> IsDigit(s[i]) then
      Some(DateTime(100 * Value2(s[0..2]) + Value2(s[2..4]), Value2(s[4..6]), Value2(s[6..8]),
                    Value2(s[9..11]), Value2(s[11..13]), Value2(s[13..15])))
    else None
  }

  /** Formatting a clock reading and reading it back gives the same reading. */
  lemma StampRoundTrip(t: Clock)
    ensures ParseStamp(Stamp(t)) == Some(t)
  {
  }

  const ScanPrefix: string := "scanned_text_"
  const ScanSuffix: string := ".txt"

  /** generate_unique_filename: `scanned_texts/scanned_text_<stamp>.txt`. */
  function ScanPath(t: Clock): (p: Path)
    ensures p != ImagePath && p != RoiPath
  {
    JoinPath(SaveDir, ScanPrefix + Stamp(t) + ScanSuffix)
  }

  /** The clock reading a saved-scan path was generated from, if it is one. */
  function ParseScanPath(p: Path): Option<DateTime> {
    var head := JoinPath(SaveDir, ScanPrefix);
    if |p| == |head| + 15 + |ScanSuffix| && p[..|head|] == head && p[|head| + 15..] == ScanSuffix
    then ParseStamp(p[|head|..|head| + 15])
    else None
  }

  predicate IsScanPath(p: Path) {
    ParseScanPath(p).Some?
  }

  /** A saved-scan path determines the clock reading it was made from. */
  lemma ScanPathRoundTrip(t: Clock)
    ensures ParseScanPath(ScanPath(t)) == Some(t)
  {
    var head := JoinPath(SaveDir, ScanPrefix);
    var p := ScanPath(t);
    assert p == head + Stamp(t) + ScanSuffix;
    assert p[..|head|] == head;
    assert p[|head|..|head| + 15] == Stamp(t);
    assert p[|head| + 15..] == ScanSuffix;
    StampRoundTrip(t);
  }

  /** Distinct clock readings (to the second) give distinct file names, so a
      save can only replace a scan made in the same second. */
  lemma ScanPathInjective(a: Clock, b: Clock)
    ensures ScanPath(a) == ScanPath(b) <==> a == b
  {
    if ScanPath(a) == ScanPath(b) {
      ScanPathRoundTrip(a);
      ScanPathRoundTrip(b);
    }
  }

  /** The two temporary images are distinct files directly inside the save directory. */
  lemma TempPathsInSaveDir()
    ensures ImagePath != RoiPath
    ensures ImagePath[..|SaveDir| + 1] == SaveDir + "/" && RoiPath[..|SaveDir| + 1] == SaveDir + "/"
    ensures '/' !in ImagePath[|SaveDir| + 1..] && '/' !in RoiPath[|SaveDir| + 1..]
  {
    assert ImagePath[|SaveDir| + 1..] == "captured_image.jpg";
    assert RoiPath[|SaveDir| + 1..] == "cropped_roi.jpg";
  }

  /** The saved scans are neither of the temporary images. */
  lemma TempPathsAreNotScans()
    ensures !IsScanPath(ImagePath) && !IsScanPath(RoiPath)
  {
  }

  /** cleanup_and_exit's effect on the directory: both temporary images are
      gone and every other file is kept as it was. */
  function Cleaned(files: FileSystem): (r: FileSystem)
    ensures ImagePath !in r && RoiPath !in r
    ensures forall p :: p != ImagePath && p != RoiPath ==> (p in r <==> p in files)
    ensures forall p :: p in r ==> r[p] == files[p]
  {
    files - {ImagePath, RoiPath}
  }

  /** Cleaning up twice is the same as cleaning up once, so running it on a
      directory without the temporary images changes nothing. */
  lemma CleanedIdempotent(files: FileSystem)
    ensures Cleaned(Cleaned(files)) == Cleaned(files)
    ensures ImagePath !in files && RoiPath !in files ==> Cleaned(files) == files
  {
  }

  /** save_text's effect: the scan path holds exactly the text (replacing any
      file of that name); every other file is kept. */
  function Saved(files: FileSystem, t: Clock, text: string): (r: FileSystem)
    ensures ScanPath(t) in r && r[ScanPath(t)] == Document(text)
    ensures forall p :: p != ScanPath(t) ==> (p in r <==> p in files)
    ensures forall p :: p in files && p != ScanPath(t) ==> r[p] == files[p]
  {
    files[ScanPath(t) := Document(text)]
  }

  /** Saving and then cleaning up keeps the saved text. */
  lemma SaveSurvivesCleanup(files: FileSystem, t: Clock, text: string)
    ensures ScanPath(t) in Cleaned(Saved(files, t, text))
    ensures Cleaned(Saved(files, t, text))[ScanPath(t)] == Document(text)
  {
  }
}
